=== FILE: README.md ===
# Movie catalogue: validators, stores and form logic in Dafny

This project models the logic of a small movie-catalogue web application: a
REST server that keeps user accounts, per-user favourite lists and movie
reviews in a document store, and a browser client whose registration and
profile forms validate input before calling the server.

The model covers three parts.

- **Field validators.** These are the browser's `validateUsername`, `validateEmail` and
  `validatePassword`, and the server's request-body rule chains with their
  `checkValidation` middleware. Each is a total function on strings. The two
  regular expressions are given as their languages. For example,
  `MatchesEmailPattern` states where the '@' and the '.' of
  `^[^\s@]+@[^\s@]+\.[^\s@]+$` fall. Each regular expression is decided by a
  scan that is proved to accept exactly the same strings.
- **The stores.** Each route handler is a pure transition that takes the
  store and returns the new store, an HTTP status and a JSON body.
  - **Users** are a map from id to record, with ids handed out in increasing order.
  - **Favourites** are a sequence of bare movie ids inside each user record.
  - **Reviews** are a sequence of documents in insertion order.

  The caller of a protected route is the user id that the token check
  resolved. Password hashing, hash comparison and token signing are the
  uninterpreted functions of a `Crypto` record. The clock reading that
  timestamps take is a parameter (`now`).
- **The client forms.** These cover the registration and profile forms'
  `validateForm`, the submit gate, the change set that the profile form
  sends, and what each form shows after the call.

Request-body and form fields are modelled as strings. The empty string stands
for both "absent" and "empty". The truthiness guards of the handlers and
forms, and express-validator's `exists().notEmpty()` guard, treat the two
alike. A store filter built from a raw field does not. Under "## Left out",
the lines for `UserRoutes.Register` and `UserRoutes.Login` say what this
means for them.

Where the design description and the code disagree, the model follows the code:

- A duplicate favourite add is a silent success. It is not a conflict.
- Favourites are bare id strings. They are not records with title, poster and year.
- The route handlers themselves do no email normalisation. What the User
  schema might do is listed among the assumptions under "## Left out".
- The review upsert runs no schema validators. The rating and length bounds
  of the review schema are the separate predicate `ReviewModel.WellFormed`.
  `ReviewRoutes.UpsertSavesWellFormedIff` shows that the saved review is
  stored either way, and meets the bounds exactly when the caller's values do.
  `ReviewRoutes.UpsertKeepsWellFormed` shows that the bounds of the whole
  collection survive an upsert whose values meet them.
  `ReviewRoutes.UpsertStoresUncheckedRating` shows that a rating of 9 is
  stored as given.
- Deleting an account does not delete its reviews. Such reviews are still
  listed, with a null author.

## Model

| member | source | states |
|---|---|---|
| ClientValidation.ValidateUsername | frontend/src/utils/validations.js:4-9 | "" exactly when the username has at least 3 characters; otherwise the one fixed username message |
| ClientValidation.ValidateEmail | frontend/src/utils/validations.js:12-18 | "" exactly for strings in the language of `^[^\s@]+@[^\s@]+\.[^\s@]+$`, otherwise the fixed email message |
| ClientValidation.EmailShapeMatchesPattern | frontend/src/utils/validations.js:13-14 | the first-'@' scan accepts exactly the strings the anchored email regular expression matches |
| ClientValidation.AcceptedEmailSplits | frontend/src/utils/validations.js:13 | an accepted address is local@domain: local non-empty, neither part holds whitespace or '@', and the domain has a '.' with a character on each side |
| ClientValidation.EmailFromParts | frontend/src/utils/validations.js:13 | conversely, every such local@domain is accepted |
| ClientValidation.AcceptedEmailHasOneAt | frontend/src/utils/validations.js:13 | an accepted address contains exactly one '@' |
| ClientValidation.ValidatePassword | frontend/src/utils/validations.js:21-33 | an empty password gives 'Password is required' before any class check; a non-empty one gives "" iff it has an ASCII upper-case letter, a lower-case letter and a digit, and the weak-password message otherwise |
| JsText.Trim | backend/middleware/validation.js:6 | the result is a slice of the input with only whitespace cut off before and after it; it has no whitespace at either end, and it is empty iff the input is all whitespace |
| JsText.TrimIdempotent | backend/models/Review.js:22 | trimming an already trimmed text changes nothing, so a trimmed stored text is stable |
| Seqs.FirstIndex | frontend/src/utils/validations.js:13 | the returned index is the first element satisfying the test (used for the '@' the pattern must match), or the length when none does |
| Seqs.Any | frontend/src/utils/validations.js:24-26 | `/[class]/.test(s)`: true iff some character of the string is in the class |
| ServerValidation.StrongPassword | backend/middleware/validation.js:22 | the scan accepts exactly the language of `^(?=.*[a-z])(?=.*[A-Z])(?=.*\d).+$`: non-empty, no line terminator, one each of a-z, A-Z and a digit |
| ServerValidation.Fails | backend/middleware/validation.js:4-36 | per rule: username skipped when empty, else passes iff trimmed length >= 3; email passes iff empty or the address check accepts the trimmed value; password and newPassword skipped when empty, else pass iff the pattern matches; currentPassword must be non-empty only when newPassword is non-empty |
| ServerValidation.Collect | backend/middleware/validation.js:40 | no more errors than rules, and no errors exactly when every rule passes |
| ServerValidation.CollectListsFailures | backend/middleware/validation.js:40 | an error is collected iff some failing rule produces that field and message |
| ServerValidation.CollectAppend | backend/middleware/validation.js:40 | errors come out in rule order: the errors of a concatenation of chains are the concatenation of their errors |
| ServerValidation.CheckValidation | backend/middleware/validation.js:39-51 | with any error the response is 400 'Validation failed' listing every error in order and the request stops; with none the request goes on and nothing is sent |
| ServerValidation.GatePassesIffAllRulesHold | backend/middleware/validation.js:39-51 | a chain of rules followed by the middleware lets a request through iff every rule holds |
| ServerValidation.NewPasswordMirrorsPassword | backend/middleware/validation.js:26-30 | the newPassword rule decides like the password rule, under a different message |
| ValidatorAgreement.ServerPasswordImpliesClient | backend/middleware/validation.js:19-23 | a password the server rule accepts is one the client accepts |
| ValidatorAgreement.ClientPasswordImpliesServer | backend/middleware/validation.js:19-23 | a single-line password the client accepts passes the server rule |
| ValidatorAgreement.LineBreakSplitsValidators | backend/middleware/validation.js:22 | "Ab1\n" passes the client check but not the server rule, because `.` excludes line terminators |
| ValidatorAgreement.ServerUsernameImpliesClient | backend/middleware/validation.js:4-8 | a non-empty username the server accepts has at least 3 characters |
| ValidatorAgreement.BlankUsernameSplitsValidators | backend/middleware/validation.js:6-7 | three spaces pass the client's length check but fail the server's trimmed one |
| ReviewModel.SortNewestFirst | backend/routes/reviewRoutes.js:12 | the result is the same multiset of reviews, ordered by createdAt, newest first |
| ReviewModel.InsertNewestFirst | backend/routes/reviewRoutes.js:12 | inserting into a newest-first list keeps it newest-first and adds exactly that review |
| ReviewModel.ForMovie | backend/routes/reviewRoutes.js:10 | each review of the requested movie is selected as many times as it is stored, and no other review is selected |
| ReviewModel.ForMovieAppend | backend/routes/reviewRoutes.js:10 | selection keeps store order: selecting from a concatenation selects from each part in turn |
| ReviewModel.WellFormed | backend/models/Review.js:4-24 | a review within the schema bounds has a text of 1 to 1000 characters that neither starts nor ends with whitespace |
| ReviewModel.UniquePairs | backend/models/Review.js:30 | the compound unique index: each (user, movieId) pair sits at exactly one position of the collection |
| ReviewModel.IndexOfPair | backend/routes/reviewRoutes.js:22-25 | the first position holding the (user, movieId) review, or the store length when there is none |
| ReviewRoutes.Populate | backend/routes/reviewRoutes.js:11 | the populated author is present iff the user record exists, and then carries only the review's user id and that user's username; the other fields are the review's own |
| ReviewRoutes.ListForMovie | backend/routes/reviewRoutes.js:8-17 | the listing is the populated form of some newest-first reordering of the movie's reviews, so each stored review of the movie gets exactly one entry; every entry comes from a review of that movie, entries are newest first, and each author is reduced to id and username (null once the user is gone) |
| ReviewRoutes.GetOwn | backend/routes/reviewRoutes.js:20-30 | returns a stored review of (caller, movieId), null exactly when there is none, and under the unique index the one review of that pair |
| ReviewRoutes.Upsert | backend/routes/reviewRoutes.js:33-48 | the returned document is stored, belongs to (caller, movieId), carries the supplied rating, the trimmed text and updatedAt = now; an existing pair keeps the count and its createdAt, a new pair adds one review created now |
| ReviewRoutes.UpsertKeepsPairsUnique | backend/models/Review.js:30 | after an upsert the unique (user, movieId) index still holds and the saved review is the only one of its pair |
| ReviewRoutes.UpsertTouchesOnlyOwnPair | backend/routes/reviewRoutes.js:38-42 | every review of another user or another movie stays at its position unchanged |
| ReviewRoutes.UpsertSavesWellFormedIff | backend/routes/reviewRoutes.js:38-42 | the saved review is always stored, and it meets the schema bounds (movie id, rating in [1, 5], trimmed text of 1 to 1000 characters) exactly when the caller's values do |
| ReviewRoutes.UpsertStoresUncheckedRating | backend/routes/reviewRoutes.js:38-42 | a rating of 9 is stored as given: the saved review is in the store and is outside the schema bounds |
| ReviewRoutes.UpsertKeepsWellFormed | backend/models/Review.js:3-28 | the schema bounds of every stored review survive an upsert whose values meet them |
| ReviewRoutes.UpsertTwiceOverwrites | backend/routes/reviewRoutes.js:38-42 | a second upsert of the same pair adds no review and the caller's review then has the second rating and text |
| ReviewRoutes.Delete | backend/routes/reviewRoutes.js:51-61 | always 200 with the same message; an absent review leaves the store unchanged; other users' and movies' reviews keep their multiplicity; the unique index is kept and the pair is gone |
| ReviewRoutes.DeleteLeavesNoOwnReview | backend/routes/reviewRoutes.js:53-56 | after a delete, get-own finds nothing for the pair |
| ReviewRoutes.ReplaceAtKeepsOthers | backend/models/Review.js:30 | overwriting a review in place by one with the same key keeps the pair unique |
| ReviewRoutes.AppendFreshPair | backend/models/Review.js:30 | appending a review whose pair is new keeps the index unique |
| ReviewRoutes.RemoveAtFacts | backend/routes/reviewRoutes.js:53-56 | cutting out one review removes exactly one copy and, under the unique index, its pair |
| Users.FindFrom | backend/routes/userRoutes.js:15 | returns the first id in order that matches the filter, or none when no id in range matches |
| Users.FindOne | backend/routes/userRoutes.js:48 | returns a stored user the filter accepts, and null exactly when no stored user matches |
| UserRoutes.Register | backend/routes/userRoutes.js:10-40 | 400 with the fixed message and no change exactly when some user has the email or the username; otherwise 201, exactly one new user with the given username, email and hashed password, a token, and a summary without the password; unique identities are preserved |
| UserRoutes.Login | backend/routes/userRoutes.js:43-67 | never changes the store; succeeds only for a stored user with that email whose hash matches; an unknown email gives 401 'Invalid credentials' |
| UserRoutes.LoginFailuresLookAlike | backend/routes/userRoutes.js:48-51 | an unknown email and a wrong password produce the identical reply |
| UserRoutes.GetProfile | backend/routes/userRoutes.js:70-80 | 200 with the caller's fields but no password iff the caller exists, else 404 'User not found' |
| UserRoutes.UpdateProfile | backend/routes/userRoutes.js:83-137 | a caller without a record gets 'Current password is required to set new password' when the body holds only a new password, and 'Failed to update profile' otherwise; a changed username or email held by any user gives 400 with its message; a new password without, or with a wrong, current password gives 400; failures save nothing; on success only non-empty fields change, the password only after the current one is verified, favourites and other users untouched; unique identities preserved |
| UserRoutes.Updated | backend/routes/userRoutes.js:116-121 | the saved record takes each non-empty field (the new password hashed), keeps the rest, keeps favourites, and equals the old record when no field is given |
| UserRoutes.UpdateKeepsIdentitiesUnique | backend/routes/userRoutes.js:89-101 | replacing one record whose changed identity fields are free keeps usernames and emails unique |
| UserRoutes.UnchangedFieldsSkipChecks | backend/routes/userRoutes.js:89-96 | resubmitting the stored username and email without a new password succeeds and changes nothing |
| UserRoutes.DeleteAccount | backend/routes/userRoutes.js:140-147 | removes the caller's record and no other, always answering 200 |
| ReviewRoutes.DeletedAccountReviewsStayListed | backend/routes/userRoutes.js:142 | a deleted account's reviews stay in the store and are listed with a null author |
| MovieRoutes.Without | backend/routes/movieRoutes.js:49 | keeps exactly the ids different from the removed one, and returns the list itself when the id is absent |
| MovieRoutes.WithoutAppend | backend/routes/movieRoutes.js:49 | the kept ids stay in their original order: filtering distributes over concatenation |
| MovieRoutes.WithoutCutsOnePosition | backend/routes/movieRoutes.js:49 | in a duplicate-free list, removing an id removes exactly its one position |
| MovieRoutes.AddFavorite | backend/routes/movieRoutes.js:31-43 | an absent id is appended at the end, a present one leaves the list unchanged, both report success; other users untouched; no-duplicates preserved; a missing user gives 500 |
| MovieRoutes.AddFavoriteIdempotent | backend/routes/movieRoutes.js:35-39 | adding the same id a second time changes nothing |
| MovieRoutes.RemoveFavorite | backend/routes/movieRoutes.js:45-55 | removes every copy of the id from the caller's list only; an absent id changes nothing and still reports success; a missing user gives 500 |
| MovieRoutes.RemoveUndoesAdd | backend/routes/movieRoutes.js:35-49 | removing an id just added to a list that lacked it restores the store |
| RegisterPage.ValidateForm | frontend/src/pages/Register.jsx:41-59 | each field error is the shared validator's output, the confirmation error is set iff the passwords differ, the general error is "", and the form is valid iff every error is "" |
| RegisterPage.HandleSubmit | frontend/src/pages/Register.jsx:61-75 | the register call is made iff the form is valid, with the form's username, email and password |
| RegisterPage.AfterFailure | frontend/src/pages/Register.jsx:76-81 | a failed call sets the general error to the server's message or 'Registration failed' and changes nothing else |
| ProfilePage.ValidateForm | frontend/src/pages/Profile.jsx:49-82 | unchanged username or email is not validated; password checks run only with a new password; the form is valid iff every error is "" |
| ProfilePage.BuildPayload | frontend/src/pages/Profile.jsx:96-102 | the payload has username iff it changed, email iff it changed, and both passwords iff the new one is non-empty |
| ProfilePage.HandleSubmit | frontend/src/pages/Profile.jsx:84-114 | invalid forms send nothing; a valid form with no changes shows 'No changes to update' and sends nothing; otherwise the non-empty change set is sent |
| ProfilePage.AfterSuccess | frontend/src/pages/Profile.jsx:116-127 | a successful update clears the three password fields and keeps username and email |
| ProfilePage.AfterFailure | frontend/src/pages/Profile.jsx:129-134 | a failed update shows the server's message or 'Failed to update profile' |
| ProfilePage.SentPayloadPassesPasswordPresence | frontend/src/pages/Profile.jsx:68-76 | an update the page sends never hits the server's missing-current-password reply |

## Left out

- Strings: Dafny strings hold Unicode scalar values, while JavaScript strings are UTF-16 code units. Lengths differ for characters outside the Basic Multilingual Plane. Lone surrogates cannot be represented.
- ServerValidation.Fails: the username length rule compares the plain length of the trimmed value. The library's own counting, which skips variation selectors, is not modelled.
- Body fields of non-string JSON types (numbers, arrays, null) are not modelled. Every field is a string, with "" for absent.
- ServerValidation.Fails: the email rule's address check is the parameter `isEmail`. The rewriting that `normalizeEmail` and `trim` do to `req.body` is not modelled. That library is not part of this model.
- backend/server.js mounts userRoutes and movieRoutes, and no route file imports backend/middleware/validation.js. So the rule chains run on no route, and they are modelled on their own. server.js does not mount reviewRoutes either. The review routes are modelled as their file defines them.
- Review ratings are integers. Fractional JavaScript numbers are not modelled. Missing `rating` or `review` fields in an upsert body are not modelled either.
- ReviewRoutes.Upsert: it stores the trimmed text. This assumes the schema's `trim` setter runs when the update is cast, while the validators do not run.
- ReviewModel.SortNewestFirst: reviews with equal createdAt keep store order. The document store leaves their order unspecified, and the contracts claim only sortedness and the same multiset.
- The User model file is not part of this model. The following are assumptions about it:
  - the pre-save password hashing is `crypto.hash`;
  - `comparePassword` is `crypto.compare`;
  - new users start with no favourites;
  - username and email are stored and matched as given, with no `lowercase` or `trim` option on those paths. The design description says emails are lower-cased before comparison and storage. If the schema does that, `UserRoutes.Register`, `UserRoutes.Login` and `UserRoutes.UpdateProfile` would match case-insensitively, and the model does not capture that;
  - a save does not fail.
- UserRoutes.Register: an absent username or email is the exact value "" in the duplicate filter. In the source such a field is `undefined`, which the document store does not match like an empty string. A save that the User schema would reject for a missing field is not modelled either.
- UserRoutes.Login: an absent email is the exact value "" in the lookup filter, with the same caveat about `undefined`.
- `findOne` returns the lowest-id match. This stands in for the store's natural order.
- Token signing and checking (the `auth` middleware) are not modelled. Each protected handler takes the resolved caller id. The `req.user.id` versus `req.userId` difference between the favourites routes and the others is not modelled.
- The following are network calls with no state to reason about, so they are not modelled:
  - movie search and movie detail proxying (backend/routes/movieRoutes.js:11-29);
  - the favourites listing, which fetches each movie from the metadata provider (backend/routes/movieRoutes.js:57-68).
- These are I/O plumbing and are not modelled: database connection, Express wiring, CORS, axios defaults and the React rendering. The catch branches that report database failures are also not modelled.
- Concurrency is not modelled. Each handler is one atomic step, so races in check-then-insert are out of scope.

=== FILE: client_validation.dfy ===
/**
 * The browser-side field validators shared by the registration and profile
 * pages. Each returns "" when the field is acceptable and one fixed message
 * otherwise.
 */
module ClientValidation {

  import opened Seqs
  import opened JsText

  const UsernameMessage := "Username must be at least 3 characters long"
  const EmailMessage := "Please enter a valid email address"
  const PasswordRequiredMessage := "Password is required"
  const PasswordWeakMessage := "Password must contain at least one uppercase letter, one lowercase letter, and one number"

  /** Minimum-length rule for usernames (no trimming on the client). */
  function ValidateUsername(username: string): (r: string)
    ensures r == "" <==> |username| >= 3
    ensures r == "" || r == UsernameMessage
  {
    if username == "" || |username| < 3 then UsernameMessage else ""
  }

  /** `[\s@]`: the characters `[^\s@]` refuses. */
  predicate Excluded(c: char) { IsWhitespace(c) || c == '@' }

  predicate IsAt(c: char) { c == '@' }

  predicate IsDot(c: char) { c == '.' }

  /**
   * The language of `/^[^\s@]+@[^\s@]+\.[^\s@]+$/`, stated by the positions
   * of the matched '@' and the matched '.': every other character is outside
   * `[\s@]`, and each of the three runs is non-empty.
   */
  ghost predicate MatchesEmailPattern(s: string) {
    exists at, dot | 0 < at && at + 1 < dot && dot + 1 < |s| ::
      && s[at] == '@' && s[dot] == '.'
      && forall k | 0 <= k < |s| && k != at :: !Excluded(s[k])
  }

  /** A '.' with at least one character on each side. */
  function HasInnerDot(domain: string): bool {
    |domain| >= 3 && Any(domain[1..|domain| - 1], IsDot)
  }

  /** A scan deciding the email pattern: split at the first '@', check both sides. */
  function EmailShape(s: string): bool {
    var at := FirstIndex(s, IsAt);
    if at == 0 || at == |s| then false
    else !Any(s[..at], Excluded) && !Any(s[at + 1..], Excluded) && HasInnerDot(s[at + 1..])
  }

  /** The scan and the regular expression accept the same strings. */
  lemma EmailShapeMatchesPattern(s: string)
    ensures EmailShape(s) <==> MatchesEmailPattern(s)
  {
    var at := FirstIndex(s, IsAt);
    if EmailShape(s) {
      var d := s[at + 1..];
      var inner := d[1..|d| - 1];
      var k :| 0 <= k < |inner| && IsDot(inner[k]);
      var dot := at + 2 + k;
      assert s[dot] == inner[k];
      forall j | 0 <= j < |s| && j != at ensures !Excluded(s[j]) {
        if j < at {
          assert s[j] == s[..at][j];
        } else {
          assert s[j] == d[j - at - 1];
        }
      }
    }
    if MatchesEmailPattern(s) {
      var a, dot :| 0 < a && a + 1 < dot && dot + 1 < |s|
        && s[a] == '@' && s[dot] == '.'
        && forall k | 0 <= k < |s| && k != a :: !Excluded(s[k]);
      assert at == a;
      var d := s[at + 1..];
      assert d[1..|d| - 1][dot - at - 2] == '.';
      assert !Any(s[..at], Excluded) by {
        forall j | 0 <= j < at ensures !Excluded(s[..at][j]) {
          assert s[..at][j] == s[j];
        }
      }
      assert !Any(d, Excluded) by {
        forall j | 0 <= j < |d| ensures !Excluded(d[j]) {
          assert d[j] == s[at + 1 + j];
        }
      }
    }
  }

  /** The email validator: "" exactly for strings the pattern accepts. */
  function ValidateEmail(email: string): (r: string)
    ensures r == "" <==> MatchesEmailPattern(email)
    ensures r == "" || r == EmailMessage
  {
    EmailShapeMatchesPattern(email);
    if email == "" || !EmailShape(email) then EmailMessage else ""
  }

  /** An accepted address splits as local@domain with the parts the pattern demands. */
  lemma AcceptedEmailSplits(email: string) returns (local: string, domain: string)
    requires ValidateEmail(email) == ""
    ensures email == local + "@" + domain
    ensures local != "" && !Any(local, Excluded)
    ensures !Any(domain, Excluded)
    ensures exists j | 0 < j < |domain| - 1 :: domain[j] == '.'
  {
    var at, dot :| 0 < at && at + 1 < dot && dot + 1 < |email|
      && email[at] == '@' && email[dot] == '.'
      && forall k | 0 <= k < |email| && k != at :: !Excluded(email[k]);
    local := email[..at];
    domain := email[at + 1..];
    assert email == local + "@" + domain;
    assert domain[dot - at - 1] == '.';
    assert forall j | 0 <= j < |local| :: local[j] == email[j];
    assert forall j | 0 <= j < |domain| :: domain[j] == email[at + 1 + j];
  }

  /** Conversely, every such local@domain is accepted. */
  lemma EmailFromParts(local: string, domain: string)
    requires local != "" && !Any(local, Excluded)
    requires !Any(domain, Excluded)
    requires exists j | 0 < j < |domain| - 1 :: domain[j] == '.'
    ensures ValidateEmail(local + "@" + domain) == ""
  {
    var s := local + "@" + domain;
    var j :| 0 < j < |domain| - 1 && domain[j] == '.';
    var at := |local|;
    assert s[at] == '@';
    assert s[at + 1 + j] == '.';
    forall k | 0 <= k < |s| && k != at ensures !Excluded(s[k]) {
      if k < at {
        assert s[k] == local[k];
      } else {
        assert s[k] == domain[k - at - 1];
      }
    }
    assert MatchesEmailPattern(s);
  }

  /** An accepted address holds exactly one '@'. */
  lemma AcceptedEmailHasOneAt(email: string)
    requires ValidateEmail(email) == ""
    ensures multiset(email)['@'] == 1
  {
    var local, domain := AcceptedEmailSplits(email);
    assert '@' !in local;
    assert '@' !in domain;
    assert multiset(email) == multiset(local) + multiset{'@'} + multiset(domain);
  }

  /**
   * The password validator: an empty password is reported as missing before
   * any class is checked; otherwise one each of `[A-Z]`, `[a-z]` and `\d`
   * must occur somewhere.
   */
  function ValidatePassword(password: string): (r: string)
    ensures password == "" ==> r == PasswordRequiredMessage
    ensures password != "" ==>
      (r == "" <==>
        && (exists i | 0 <= i < |password| :: IsAsciiUpper(password[i]))
        && (exists i | 0 <= i < |password| :: IsAsciiLower(password[i]))
        && (exists i | 0 <= i < |password| :: IsAsciiDigit(password[i])))
    ensures password != "" && r != "" ==> r == PasswordWeakMessage
    ensures r == "" || r == PasswordRequiredMessage || r == PasswordWeakMessage
  {
    if password == "" then PasswordRequiredMessage
    else
      var hasUpperCase := Any(password, IsAsciiUpper);
      var hasLowerCase := Any(password, IsAsciiLower);
      var hasNumber := Any(password, IsAsciiDigit);
      if !hasUpperCase || !hasLowerCase || !hasNumber then PasswordWeakMessage else ""
  }
}

=== FILE: js_text.dfy ===
/**
 * Character classes of JavaScript regular expressions and the whitespace
 * trimming of `String.prototype.trim`, over Dafny strings (one `char` per
 * Unicode scalar value).
 */
module JsText {

  import opened Seqs

  /** `\s` in a JavaScript regular expression; also exactly what `trim` strips. */
  predicate IsWhitespace(c: char) {
    || c == '\t' || c == '\n' || c == '\U{B}' || c == '\U{C}' || c == '\r' || c == ' '
    || c == '\U{A0}' || c == '\U{1680}' || ('\U{2000}' <= c <= '\U{200A}')
    || c == '\U{2028}' || c == '\U{2029}' || c == '\U{202F}' || c == '\U{205F}'
    || c == '\U{3000}' || c == '\U{FEFF}'
  }

  /** The characters `.` does not match when the `s` flag is absent. */
  predicate IsLineTerminator(c: char) {
    c == '\n' || c == '\r' || c == '\U{2028}' || c == '\U{2029}'
  }

  /** `[A-Z]` */
  predicate IsAsciiUpper(c: char) { 'A' <= c <= 'Z' }

  /** `[a-z]` */
  predicate IsAsciiLower(c: char) { 'a' <= c <= 'z' }

  /** `\d` (ASCII digits only, as in JavaScript) */
  predicate IsAsciiDigit(c: char) { '0' <= c <= '9' }

  /** Drops leading whitespace. */
  function TrimStart(s: string): (r: string)
    ensures |r| <= |s| && r == s[|s| - |r|..]
    ensures forall k | 0 <= k < |s| - |r| :: IsWhitespace(s[k])
    ensures r == [] || !IsWhitespace(r[0])
  {
    if s != [] && IsWhitespace(s[0]) then TrimStart(s[1..]) else s
  }

  /** Drops trailing whitespace. */
  function TrimEnd(s: string): (r: string)
    ensures |r| <= |s| && r == s[..|r|]
    ensures forall k | |r| <= k < |s| :: IsWhitespace(s[k])
    ensures r == [] || !IsWhitespace(r[|r| - 1])
  {
    if s != [] && IsWhitespace(s[|s| - 1]) then TrimEnd(s[..|s| - 1]) else s
  }

  /** `String.prototype.trim`: whitespace removed from both ends. */
  function Trim(s: string): (r: string)
    ensures |r| <= |s|
    ensures exists i, j | 0 <= i <= j <= |s| :: r == s[i..j] && StripsOnly(s, i, j)
    ensures r == [] || (!IsWhitespace(r[0]) && !IsWhitespace(r[|r| - 1]))
    ensures r == [] <==> forall k | 0 <= k < |s| :: IsWhitespace(s[k])
  {
    TrimBothEnds(s);
    TrimEnd(TrimStart(s))
  }

  /** Everything of `s` before `i` and from `j` on is whitespace. */
  predicate StripsOnly(s: string, i: nat, j: nat)
    requires i <= j <= |s|
  {
    (forall k | 0 <= k < i :: IsWhitespace(s[k])) && (forall k | j <= k < |s| :: IsWhitespace(s[k]))
  }

  /** A whitespace-led suffix's whitespace-trailed prefix is a slice with only whitespace around it. */
  lemma SliceBetweenWhitespace(s: string, t: string, r: string)
    requires |t| <= |s| && t == s[|s| - |t|..] && forall k | 0 <= k < |s| - |t| :: IsWhitespace(s[k])
    requires |r| <= |t| && r == t[..|r|] && forall k | |r| <= k < |t| :: IsWhitespace(t[k])
    ensures exists i, j | 0 <= i <= j <= |s| :: r == s[i..j] && StripsOnly(s, i, j)
  {
    var i := |s| - |t|;
    var j := i + |r|;
    assert r == s[i..j];
    forall k | j <= k < |s| ensures IsWhitespace(s[k]) {
      assert s[k] == t[k - i];
    }
    assert StripsOnly(s, i, j);
  }

  /** What trimming both ends keeps: a slice of the input that, when non-empty, starts and ends with a non-space. */
  lemma TrimBothEnds(s: string)
    ensures var r := TrimEnd(TrimStart(s));
      && (exists i, j | 0 <= i <= j <= |s| :: r == s[i..j] && StripsOnly(s, i, j))
      && (r == [] || (!IsWhitespace(r[0]) && !IsWhitespace(r[|r| - 1])))
      && (r == [] <==> forall k | 0 <= k < |s| :: IsWhitespace(s[k]))
  {
    var t := TrimStart(s);
    var r := TrimEnd(t);
    SliceBetweenWhitespace(s, t, r);
    if r == [] {
      assert t == [];
    } else {
      assert r[0] == t[0];
    }
  }

  /** Trimming a trimmed string changes nothing. */
  lemma {:induction false} TrimIdempotent(s: string)
    ensures Trim(Trim(s)) == Trim(s)
  {
    var r := Trim(s);
    if r != [] {
      assert TrimStart(r) == r;
      assert TrimEnd(r) == r;
    }
  }
}

=== FILE: movie_routes.dfy ===
/**
 * The favourites routes: each user's favourites are a sequence of bare movie
 * ids embedded in the user record. Only the caller's record is touched.
 */
module MovieRoutes {

  import opened Users

  datatype Reply = Reply(db: UserDb, status: int, message: string)

  const AddedMessage := "Movie added to favorites"
  const RemovedMessage := "Movie removed from favorites"
  const AddFailedMessage := "Error adding favorite"
  const RemoveFailedMessage := "Error removing favorite"

  /** No movie id occurs twice. */
  predicate NoDuplicates(favorites: seq<string>) {
    forall i, j | 0 <= i < j < |favorites| :: favorites[i] != favorites[j]
  }

  /** `favorites.filter(favId => favId !== id)`. */
  function Without(favorites: seq<string>, id: string): (r: seq<string>)
    ensures forall x :: x in r <==> x in favorites && x != id
    ensures |r| <= |favorites|
    ensures id !in favorites ==> r == favorites
  {
    if favorites == [] then []
    else if favorites[0] == id then Without(favorites[1..], id)
    else [favorites[0]] + Without(favorites[1..], id)
  }

  /** Filtering distributes over concatenation, so the kept ids stay in their original order. */
  lemma {:induction false} WithoutAppend(a: seq<string>, b: seq<string>, id: string)
    ensures Without(a + b, id) == Without(a, id) + Without(b, id)
  {
    if a == [] {
      assert a + b == b;
    } else {
      assert (a + b)[0] == a[0];
      assert (a + b)[1..] == a[1..] + b;
      WithoutAppend(a[1..], b, id);
    }
  }

  /** In a duplicate-free list, removing an id cuts out exactly its one position. */
  lemma WithoutCutsOnePosition(favorites: seq<string>, i: nat)
    requires NoDuplicates(favorites) && i < |favorites|
    ensures Without(favorites, favorites[i]) == favorites[..i] + favorites[i + 1..]
  {
    var id := favorites[i];
    assert favorites == favorites[..i] + [id] + favorites[i + 1..];
    assert id !in favorites[..i];
    assert id !in favorites[i + 1..];
    WithoutAppend(favorites[..i] + [id], favorites[i + 1..], id);
    WithoutAppend(favorites[..i], [id], id);
  }

  /** POST /favorite: append the id unless it is already there; either way report success. */
  function AddFavorite(db: UserDb, caller: UserId, movieId: string): (r: Reply)
    ensures caller !in db.users ==> r == Reply(db, 500, AddFailedMessage)
    ensures caller in db.users ==>
      && r.status == 200 && r.message == AddedMessage
      && r.db.nextId == db.nextId && r.db.users.Keys == db.users.Keys
      && var before := db.users[caller].favorites;
         r.db.users[caller] == db.users[caller].(favorites := if movieId in before then before else before + [movieId])
    ensures forall id | id in db.users && id != caller :: r.db.users[id] == db.users[id]
    ensures forall id | id in r.db.users :: movieId in r.db.users[id].favorites || id != caller
    ensures forall id | id in db.users && NoDuplicates(db.users[id].favorites) :: NoDuplicates(r.db.users[id].favorites)
  {
    if caller !in db.users then Reply(db, 500, AddFailedMessage)
    else
      var u := db.users[caller];
      if movieId !in u.favorites then
        Reply(Db(db.users[caller := u.(favorites := u.favorites + [movieId])], db.nextId), 200, AddedMessage)
      else Reply(db, 200, AddedMessage)
  }

  /** DELETE /favorite/:id: drop every entry equal to the id; removing an absent id is a success that changes nothing. */
  function RemoveFavorite(db: UserDb, caller: UserId, movieId: string): (r: Reply)
    ensures caller !in db.users ==> r == Reply(db, 500, RemoveFailedMessage)
    ensures caller in db.users ==>
      && r.status == 200 && r.message == RemovedMessage
      && r.db.nextId == db.nextId && r.db.users.Keys == db.users.Keys
      && r.db.users[caller] == db.users[caller].(favorites := Without(db.users[caller].favorites, movieId))
    ensures forall id | id in db.users && id != caller :: r.db.users[id] == db.users[id]
    ensures forall id | id in r.db.users :: movieId !in r.db.users[id].favorites || id != caller
    ensures caller in db.users && movieId !in db.users[caller].favorites ==> r.db == db
  {
    if caller !in db.users then Reply(db, 500, RemoveFailedMessage)
    else
      var u := db.users[caller];
      var saved := u.(favorites := Without(u.favorites, movieId));
      assert movieId !in u.favorites ==> db.users[caller := saved] == db.users;
      Reply(Db(db.users[caller := saved], db.nextId), 200, RemovedMessage)
  }

  /** Adding the same id twice leaves the store as the first add left it. */
  lemma AddFavoriteIdempotent(db: UserDb, caller: UserId, movieId: string)
    ensures var once := AddFavorite(db, caller, movieId);
      AddFavorite(once.db, caller, movieId) == once
  {
  }

  /** Removing an id just added to a list that lacked it restores the list. */
  lemma RemoveUndoesAdd(db: UserDb, caller: UserId, movieId: string)
    requires caller in db.users && movieId !in db.users[caller].favorites
    ensures RemoveFavorite(AddFavorite(db, caller, movieId).db, caller, movieId).db == db
  {
    var before := db.users[caller].favorites;
    WithoutAppend(before, [movieId], movieId);
    assert Without([movieId], movieId) == [];
    assert Without(before + [movieId], movieId) == before;
    var u := db.users[caller];
    assert db.users[caller := u.(favorites := before)] == db.users;
  }
}

=== FILE: profile_page.dfy ===
/**
 * The profile form's decision logic: which fields are validated, which
 * changes go into the update request, and what the form shows afterwards.
 */
module ProfilePage {

  import opened Wrappers
  import opened ClientValidation
  import Users
  import UserRoutes

  datatype Form = Form(username: string, email: string, currentPassword: string,
                       newPassword: string, confirmPassword: string)

  /** The signed-in user as the page knows it. */
  datatype CurrentUser = CurrentUser(username: string, email: string)

  datatype Errors = Errors(username: string, email: string, currentPassword: string,
                           newPassword: string, confirmPassword: string, general: string)

  datatype PasswordChange = PasswordChange(currentPassword: string, newPassword: string)

  /** `updateData`: a key is present only when its field changed. */
  datatype Payload = Payload(username: Option<string>, email: Option<string>, passwords: Option<PasswordChange>)

  /** What a submit does: stop on invalid input, stop when nothing changed, or send the update. */
  datatype Submission =
    | Invalid(errors: Errors)
    | NoChanges(errors: Errors)
    | Send(errors: Errors, payload: Payload)

  const CurrentRequiredMessage := "Current password is required to set new password"
  const MismatchMessage := "Passwords do not match"
  const NoChangesMessage := "No changes to update"
  const UpdatedMessage := "Profile updated successfully!"
  const UpdateFailedMessage := "Failed to update profile"

  predicate AllClear(e: Errors) {
    && e.username == "" && e.email == "" && e.currentPassword == ""
    && e.newPassword == "" && e.confirmPassword == "" && e.general == ""
  }

  /** `validateForm`: unchanged identity fields and an empty new password are not checked. */
  function ValidateForm(f: Form, user: CurrentUser): (v: (Errors, bool))
    ensures f.username == user.username ==> v.0.username == ""
    ensures f.username != user.username ==> v.0.username == ValidateUsername(f.username)
    ensures f.email == user.email ==> v.0.email == ""
    ensures f.email != user.email ==> v.0.email == ValidateEmail(f.email)
    ensures f.newPassword == "" ==> v.0.newPassword == "" && v.0.currentPassword == "" && v.0.confirmPassword == ""
    ensures f.newPassword != "" ==>
      && v.0.newPassword == ValidatePassword(f.newPassword)
      && (v.0.currentPassword != "" <==> f.currentPassword == "")
      && (v.0.confirmPassword != "" <==> f.newPassword != f.confirmPassword)
    ensures v.0.general == ""
    ensures v.1 <==> AllClear(v.0)
  {
    var passwordSet := f.newPassword != "";
    var errors := Errors(
      if f.username != user.username then ValidateUsername(f.username) else "",
      if f.email != user.email then ValidateEmail(f.email) else "",
      if passwordSet && f.currentPassword == "" then CurrentRequiredMessage else "",
      if passwordSet then ValidatePassword(f.newPassword) else "",
      if passwordSet && f.newPassword != f.confirmPassword then MismatchMessage else "",
      "");
    (errors, AllClear(errors))
  }

  /** The changed fields; the two passwords travel together. */
  function BuildPayload(f: Form, user: CurrentUser): (p: Payload)
    ensures p.username.Some? <==> f.username != user.username
    ensures p.username.Some? ==> p.username.value == f.username
    ensures p.email.Some? <==> f.email != user.email
    ensures p.email.Some? ==> p.email.value == f.email
    ensures p.passwords.Some? <==> f.newPassword != ""
    ensures p.passwords.Some? ==> p.passwords.value == PasswordChange(f.currentPassword, f.newPassword)
  {
    Payload(if f.username != user.username then Some(f.username) else None,
            if f.email != user.email then Some(f.email) else None,
            if f.newPassword != "" then Some(PasswordChange(f.currentPassword, f.newPassword)) else None)
  }

  predicate IsEmpty(p: Payload) {
    p.username.None? && p.email.None? && p.passwords.None?
  }

  /** `handleSubmit` up to the request: invalid forms and forms without changes send nothing. */
  function HandleSubmit(f: Form, user: CurrentUser): (s: Submission)
    ensures s.Invalid? <==> !ValidateForm(f, user).1
    ensures s.Invalid? ==> s.errors == ValidateForm(f, user).0
    ensures s.NoChanges? <==>
      ValidateForm(f, user).1 && f.username == user.username && f.email == user.email && f.newPassword == ""
    ensures s.NoChanges? ==> s.errors == ValidateForm(f, user).0.(general := NoChangesMessage)
    ensures s.Send? ==> !IsEmpty(s.payload) && s.payload == BuildPayload(f, user) && AllClear(s.errors)
  {
    var (errors, ok) := ValidateForm(f, user);
    if !ok then Invalid(errors)
    else
      var payload := BuildPayload(f, user);
      if IsEmpty(payload) then NoChanges(errors.(general := NoChangesMessage))
      else Send(errors, payload)
  }

  /** A successful update clears the three password fields and keeps the rest of the form. */
  function AfterSuccess(f: Form, errors: Errors): (after: (Form, Errors))
    ensures after.0.currentPassword == "" && after.0.newPassword == "" && after.0.confirmPassword == ""
    ensures after.0.username == f.username && after.0.email == f.email
    ensures after.1 == errors.(general := UpdatedMessage)
  {
    (f.(currentPassword := "", newPassword := "", confirmPassword := ""), errors.(general := UpdatedMessage))
  }

  /** A failed update shows the server's message, or a fixed one when there is none. */
  function AfterFailure(errors: Errors, serverMessage: string): (e: Errors)
    ensures e.general != ""
    ensures serverMessage != "" ==> e.general == serverMessage
    ensures serverMessage == "" ==> e.general == UpdateFailedMessage
    ensures e.(general := errors.general) == errors
  {
    errors.(general := if serverMessage != "" then serverMessage else UpdateFailedMessage)
  }

  function OrEmpty(o: Option<string>): string {
    if o.Some? then o.value else ""
  }

  /**
   * A request the page sends never reaches the server's missing-current-password
   * branch: the page already demands the current password with a new one.
   */
  lemma SentPayloadPassesPasswordPresence(f: Form, user: CurrentUser, db: Users.UserDb,
                                          crypto: UserRoutes.Crypto, caller: Users.UserId)
    requires HandleSubmit(f, user).Send?
    ensures var p := HandleSubmit(f, user).payload;
      var change := if p.passwords.Some? then p.passwords.value else PasswordChange("", "");
      UserRoutes.UpdateProfile(db, crypto, caller, OrEmpty(p.username), OrEmpty(p.email),
                               change.currentPassword, change.newPassword).body
        != UserRoutes.Message(UserRoutes.CurrentPasswordRequiredMessage)
  {
  }
}

=== FILE: register_page.dfy ===
/**
 * The registration form's decision logic: which error each field shows, and
 * whether the register call is made.
 */
module RegisterPage {

  import opened ClientValidation

  datatype Form = Form(username: string, email: string, password: string, confirmPassword: string)

  datatype Errors = Errors(username: string, email: string, password: string,
                           confirmPassword: string, general: string)

  /** The body handed to the register call. */
  datatype Request = Request(username: string, email: string, password: string)

  /** What a submit does: stop with the validation errors, or make the call. */
  datatype Submission = Blocked(errors: Errors) | Send(errors: Errors, request: Request)

  const MismatchMessage := "Passwords do not match"
  const RegistrationFailedMessage := "Registration failed"

  /** Every error string is empty. */
  predicate AllClear(e: Errors) {
    e.username == "" && e.email == "" && e.password == "" && e.confirmPassword == "" && e.general == ""
  }

  /** `validateForm`: the errors it sets and whether the form may be sent. */
  function ValidateForm(f: Form): (v: (Errors, bool))
    ensures v.0.username == ValidateUsername(f.username)
    ensures v.0.email == ValidateEmail(f.email)
    ensures v.0.password == ValidatePassword(f.password)
    ensures v.0.confirmPassword != "" <==> f.password != f.confirmPassword
    ensures v.0.general == ""
    ensures v.1 <==> AllClear(v.0)
    ensures v.1 <==>
      && |f.username| >= 3
      && MatchesEmailPattern(f.email)
      && ValidatePassword(f.password) == ""
      && f.password == f.confirmPassword
  {
    var errors := Errors(ValidateUsername(f.username), ValidateEmail(f.email), ValidatePassword(f.password),
                         if f.password != f.confirmPassword then MismatchMessage else "", "");
    (errors, AllClear(errors))
  }

  /** `handleSubmit` up to the register call, which is made only for a valid form. */
  function HandleSubmit(f: Form): (s: Submission)
    ensures s.Send? <==> ValidateForm(f).1
    ensures s.Blocked? ==> s.errors == ValidateForm(f).0 && !AllClear(s.errors)
    ensures s.Send? ==>
      && s.request == Request(f.username, f.email, f.password)
      && |f.username| >= 3 && MatchesEmailPattern(f.email) && ValidatePassword(f.password) == ""
  {
    var (errors, ok) := ValidateForm(f);
    if !ok then Blocked(errors) else Send(errors, Request(f.username, f.email, f.password))
  }

  /** A failed register call shows the server's message, or a fixed one when there is none. */
  function AfterFailure(errors: Errors, serverMessage: string): (e: Errors)
    ensures e.general != ""
    ensures serverMessage != "" ==> e.general == serverMessage
    ensures serverMessage == "" ==> e.general == RegistrationFailedMessage
    ensures e.(general := errors.general) == errors
  {
    errors.(general := if serverMessage != "" then serverMessage else RegistrationFailedMessage)
  }
}

=== FILE: review_model.dfy ===
/**
 * The review document: one author, one movie, a rating and a text, with the
 * timestamps the schema adds. The schema's field bounds are kept as a
 * separate well-formedness predicate, because the update route does not ask
 * for them to be checked.
 */
module ReviewModel {

  import opened JsText
  import opened Users

  datatype Review = Review(user: UserId, movieId: string, rating: int, review: string,
                           createdAt: int, updatedAt: int)

  /** The reviews collection, in insertion order. */
  type ReviewStore = seq<Review>

  const MaxReviewLength := 1000

  /** The schema's bounds: required movie id, rating in [1, 5], required trimmed text of at most 1000 characters. */
  predicate WellFormed(r: Review): (b: bool)
    ensures b ==> 1 <= |r.review| <= MaxReviewLength
    ensures b ==> !IsWhitespace(r.review[0]) && !IsWhitespace(r.review[|r.review| - 1])
  {
    && r.movieId != ""
    && 1 <= r.rating <= 5
    && r.review != "" && |r.review| <= MaxReviewLength && Trim(r.review) == r.review
  }

  /** The review belongs to this user and this movie. */
  predicate KeyedBy(r: Review, user: UserId, movieId: string) {
    r.user == user && r.movieId == movieId
  }

  /** The compound unique index: no two reviews share (user, movieId). */
  predicate UniquePairs(store: ReviewStore): (b: bool)
    ensures b <==> forall i, j | 0 <= i < |store| && 0 <= j < |store| && KeyedBy(store[j], store[i].user, store[i].movieId) :: i == j
  {
    forall i, j | 0 <= i < j < |store| :: !KeyedBy(store[j], store[i].user, store[i].movieId)
  }

  /** Newer reviews come first. */
  predicate NewestFirst(rs: seq<Review>) {
    forall i, j | 0 <= i < j < |rs| :: rs[i].createdAt >= rs[j].createdAt
  }

  /** A review no older than every review of a newest-first list may head it. */
  lemma PrependNewest(h: Review, t: seq<Review>)
    requires NewestFirst(t)
    requires forall x | x in t :: x.createdAt <= h.createdAt
    ensures NewestFirst([h] + t)
  {
    var s := [h] + t;
    forall i, j | 0 <= i < j < |s| ensures s[i].createdAt >= s[j].createdAt {
      if i == 0 {
        assert s[j] == t[j - 1];
        assert s[j] in t;
      } else {
        assert s[i] == t[i - 1] && s[j] == t[j - 1];
      }
    }
  }

  /** Puts `r` in front of the first review not newer than it. */
  function InsertNewestFirst(r: Review, rs: seq<Review>): (out: seq<Review>)
    requires NewestFirst(rs)
    ensures NewestFirst(out)
    ensures multiset(out) == multiset(rs) + multiset{r}
  {
    if rs == [] then [r]
    else if r.createdAt >= rs[0].createdAt then
      PrependNewest(r, rs);
      [r] + rs
    else
      var h := rs[0];
      var t := rs[1..];
      HeadIsNewest(rs);
      var rest := InsertNewestFirst(r, t);
      NoNewerThanHead(h, r, t, rest);
      PrependNewest(h, rest);
      ConsKeepsAddition(h, t, rest, r);
      assert rs == [h] + t;
      [h] + rest
  }

  /** The head of a newest-first list is no older than its tail, which is newest-first too. */
  lemma HeadIsNewest(rs: seq<Review>)
    requires NewestFirst(rs) && rs != []
    ensures NewestFirst(rs[1..])
    ensures forall x | x in rs[1..] :: x.createdAt <= rs[0].createdAt
  {
    forall x | x in rs[1..] ensures x.createdAt <= rs[0].createdAt {
      var k :| 0 <= k < |rs[1..]| && rs[1..][k] == x;
      assert rs[k + 1] == x;
    }
  }

  /** A list made of `t` and `r` holds nothing newer than `h` when neither does. */
  lemma NoNewerThanHead(h: Review, r: Review, t: seq<Review>, rest: seq<Review>)
    requires forall x | x in t :: x.createdAt <= h.createdAt
    requires r.createdAt <= h.createdAt
    requires multiset(rest) == multiset(t) + multiset{r}
    ensures forall x | x in rest :: x.createdAt <= h.createdAt
  {
    forall x | x in rest ensures x.createdAt <= h.createdAt {
      assert x in multiset(rest);
      if x != r {
        assert x in multiset(t);
      }
    }
  }

  /** Putting the same head on both sides keeps one extra element. */
  lemma ConsKeepsAddition(h: Review, t: seq<Review>, rest: seq<Review>, r: Review)
    requires multiset(rest) == multiset(t) + multiset{r}
    ensures multiset([h] + rest) == multiset([h] + t) + multiset{r}
  {
  }

  /** `sort({ createdAt: -1 })`: the same reviews, newest first (ties keep store order). */
  function SortNewestFirst(rs: seq<Review>): (out: seq<Review>)
    ensures NewestFirst(out)
    ensures multiset(out) == multiset(rs)
  {
    if rs == [] then []
    else
      assert rs == [rs[0]] + rs[1..];
      InsertNewestFirst(rs[0], SortNewestFirst(rs[1..]))
  }

  /** `find({ movieId })`: the reviews of one movie, in store order. */
  function ForMovie(store: ReviewStore, movieId: string): (rs: seq<Review>)
    ensures forall r :: r in rs <==> r in store && r.movieId == movieId
    ensures forall r :: multiset(rs)[r] == if r.movieId == movieId then multiset(store)[r] else 0
    ensures |rs| <= |store|
  {
    if store == [] then []
    else
      assert store == [store[0]] + store[1..];
      if store[0].movieId == movieId then [store[0]] + ForMovie(store[1..], movieId)
      else ForMovie(store[1..], movieId)
  }

  /** Selecting from a concatenation selects from each part in turn, so store order is kept. */
  lemma {:induction false} ForMovieAppend(a: ReviewStore, b: ReviewStore, movieId: string)
    ensures ForMovie(a + b, movieId) == ForMovie(a, movieId) + ForMovie(b, movieId)
  {
    if a == [] {
      assert a + b == b;
    } else {
      assert (a + b)[1..] == a[1..] + b;
      ForMovieAppend(a[1..], b, movieId);
    }
  }

  /** Where the review of (user, movieId) sits, or `|store|`. */
  function IndexOfPair(store: ReviewStore, user: UserId, movieId: string): (i: nat)
    ensures i <= |store|
    ensures i < |store| ==> KeyedBy(store[i], user, movieId)
    ensures forall k | 0 <= k < i :: !KeyedBy(store[k], user, movieId)
  {
    if store == [] then 0
    else if KeyedBy(store[0], user, movieId) then 0
    else 1 + IndexOfPair(store[1..], user, movieId)
  }
}

=== FILE: review_routes.dfy ===
/**
 * The review routes: list a movie's reviews, fetch, upsert or delete one's
 * own review. Each is a transition of the review collection; the caller is
 * the id the token check resolved and `now` is the clock reading the
 * timestamps take.
 */
module ReviewRoutes {

  import opened Wrappers
  import opened JsText
  import opened Users
  import opened ReviewModel
  import UserRoutes

  /** The populated `user` of a listed review: only the id and the username. */
  datatype Author = Author(id: UserId, username: string)

  /** A listed review; its author populates as null once the user record is gone. */
  datatype Listed = Listed(author: Option<Author>, movieId: string, rating: int, review: string,
                           createdAt: int, updatedAt: int)

  datatype ReplyBody =
    | Reviews(items: seq<Listed>)
    | Found(found: Option<Review>)
    | Saved(saved: Review)
    | Message(message: string)

  datatype Reply = Reply(store: ReviewStore, status: int, body: ReplyBody)

  const DeletedMessage := "Review deleted successfully"

  /** `populate('user', 'username')` applied to one review. */
  function Populate(r: Review, db: UserDb): (l: Listed)
    ensures l.author.Some? <==> r.user in db.users
    ensures l.author.Some? ==> l.author.value.id == r.user && l.author.value.username == db.users[r.user].username
    ensures (l.movieId, l.rating, l.review, l.createdAt, l.updatedAt) == (r.movieId, r.rating, r.review, r.createdAt, r.updatedAt)
  {
    var author := if r.user in db.users then Some(Author(r.user, db.users[r.user].username)) else None;
    Listed(author, r.movieId, r.rating, r.review, r.createdAt, r.updatedAt)
  }

  /** GET /movie/:movieId: every review of the movie and no other, newest first, authors reduced to their usernames. */
  function ListForMovie(store: ReviewStore, db: UserDb, movieId: string): (r: Reply)
    ensures r.store == store && r.status == 200 && r.body.Reviews?
    ensures |r.body.items| == |ForMovie(store, movieId)|
    ensures forall i, j | 0 <= i < j < |r.body.items| :: r.body.items[i].createdAt >= r.body.items[j].createdAt
    ensures forall l | l in r.body.items :: exists x | x in store :: x.movieId == movieId && l == Populate(x, db)
    ensures forall x | x in store && x.movieId == movieId :: Populate(x, db) in r.body.items
    ensures exists rs | multiset(rs) == multiset(ForMovie(store, movieId)) && NewestFirst(rs) ::
      r.body.items == PopulateAll(rs, db)
  {
    var rs := SortNewestFirst(ForMovie(store, movieId));
    var items := PopulateAll(rs, db);
    PopulatedListing(store, db, movieId, rs, items);
    Reply(store, 200, Reviews(items))
  }

  /** `populate` over a list of reviews, position by position. */
  function PopulateAll(rs: seq<Review>, db: UserDb): (items: seq<Listed>)
    ensures |items| == |rs| && forall i | 0 <= i < |rs| :: items[i] == Populate(rs[i], db)
  {
    seq(|rs|, i requires 0 <= i < |rs| => Populate(rs[i], db))
  }

  /**
   * Populating a newest-first reordering of the movie's reviews lists each of
   * them once, as many times as it is stored, and nothing else.
   */
  lemma PopulatedListing(store: ReviewStore, db: UserDb, movieId: string, rs: seq<Review>, items: seq<Listed>)
    requires multiset(rs) == multiset(ForMovie(store, movieId)) && NewestFirst(rs)
    requires |items| == |rs| && forall i | 0 <= i < |rs| :: items[i] == Populate(rs[i], db)
    ensures |items| == |ForMovie(store, movieId)|
    ensures forall i, j | 0 <= i < j < |items| :: items[i].createdAt >= items[j].createdAt
    ensures forall l | l in items :: exists x | x in store :: x.movieId == movieId && l == Populate(x, db)
    ensures forall x | x in store && x.movieId == movieId :: Populate(x, db) in items
    ensures exists rs' | multiset(rs') == multiset(ForMovie(store, movieId)) && NewestFirst(rs') ::
      items == PopulateAll(rs', db)
  {
    assert items == PopulateAll(rs, db);
    assert |multiset(rs)| == |multiset(ForMovie(store, movieId))|;
    forall l | l in items ensures exists x | x in store :: x.movieId == movieId && l == Populate(x, db) {
      var i :| 0 <= i < |items| && items[i] == l;
      assert rs[i] in multiset(ForMovie(store, movieId));
    }
    forall x | x in store && x.movieId == movieId ensures Populate(x, db) in items {
      assert x in multiset(ForMovie(store, movieId));
      assert x in multiset(rs);
      var k :| 0 <= k < |rs| && rs[k] == x;
      assert items[k] == Populate(x, db);
    }
  }

  /** GET /movie/:movieId/user: the caller's review of the movie, or null when there is none. */
  function GetOwn(store: ReviewStore, caller: UserId, movieId: string): (r: Reply)
    ensures r.store == store && r.status == 200 && r.body.Found?
    ensures r.body.found.Some? ==> r.body.found.value in store && KeyedBy(r.body.found.value, caller, movieId)
    ensures r.body.found.None? <==> forall x | x in store :: !KeyedBy(x, caller, movieId)
    ensures UniquePairs(store) ==>
      forall x | x in store && KeyedBy(x, caller, movieId) :: r.body.found == Some(x)
  {
    var i := IndexOfPair(store, caller, movieId);
    Reply(store, 200, Found(if i < |store| then Some(store[i]) else None))
  }

  /**
   * POST /movie/:movieId: overwrite the caller's review of the movie, or add
   * one. The text is stored trimmed; the rating and length bounds are not
   * checked.
   */
  function Upsert(store: ReviewStore, caller: UserId, movieId: string, rating: int, text: string, now: int): (r: Reply)
    ensures r.status == 200 && r.body.Saved?
    ensures var saved := r.body.saved;
      && KeyedBy(saved, caller, movieId) && saved.rating == rating && saved.review == Trim(text)
      && saved.updatedAt == now && saved in r.store
    ensures (exists x | x in store :: KeyedBy(x, caller, movieId)) ==> |r.store| == |store|
    ensures UniquePairs(store) ==>
      forall x | x in store && KeyedBy(x, caller, movieId) :: r.body.saved.createdAt == x.createdAt
    ensures (forall x | x in store :: !KeyedBy(x, caller, movieId)) ==>
      |r.store| == |store| + 1 && r.body.saved.createdAt == now
  {
    var i := IndexOfPair(store, caller, movieId);
    if i < |store| then
      var saved := store[i].(rating := rating, review := Trim(text), updatedAt := now);
      ReplaceAtKeepsOthers(store, i, saved);
      Reply(store[i := saved], 200, Saved(saved))
    else
      var saved := Review(caller, movieId, rating, Trim(text), now, now);
      AppendFreshPair(store, saved);
      Reply(store + [saved], 200, Saved(saved))
  }

  /** Overwriting the review at `i` by one with the same key keeps the index unique and touches nothing else. */
  lemma ReplaceAtKeepsOthers(store: ReviewStore, i: nat, saved: Review)
    requires i < |store| && KeyedBy(saved, store[i].user, store[i].movieId)
    requires forall k | 0 <= k < i :: !KeyedBy(store[k], saved.user, saved.movieId)
    ensures var next := store[i := saved];
      && saved in next
      && (forall x | x in next :: x == saved || x in store)
      && (UniquePairs(store) ==> UniquePairs(next))
      && (UniquePairs(store) ==> forall x | x in next && KeyedBy(x, saved.user, saved.movieId) :: x == saved)
      && (UniquePairs(store) ==> forall x | x in store && KeyedBy(x, saved.user, saved.movieId) :: x == store[i])
  {
    var next := store[i := saved];
    assert next[i] == saved;
    if UniquePairs(store) {
      forall x | x in next && KeyedBy(x, saved.user, saved.movieId) ensures x == saved {
        var k :| 0 <= k < |next| && next[k] == x;
      }
      forall x | x in store && KeyedBy(x, saved.user, saved.movieId) ensures x == store[i] {
        var k :| 0 <= k < |store| && store[k] == x;
        if k > i {
          assert !KeyedBy(store[k], store[i].user, store[i].movieId);
        }
      }
    }
  }

  /** Appending a review whose key is new keeps the index unique. */
  lemma AppendFreshPair(store: ReviewStore, saved: Review)
    requires forall x | x in store :: !KeyedBy(x, saved.user, saved.movieId)
    ensures var next := store + [saved];
      && saved in next
      && (forall x | x in next :: x == saved || x in store)
      && (UniquePairs(store) ==> UniquePairs(next))
      && (forall x | x in next && KeyedBy(x, saved.user, saved.movieId) :: x == saved)
  {
    var next := store + [saved];
    assert next[|store|] == saved;
    forall i, j | 0 <= i < j < |next| && UniquePairs(store)
      ensures !KeyedBy(next[j], next[i].user, next[i].movieId)
    {
      if j == |store| {
        assert next[i] in store;
      }
    }
  }

  /** DELETE /movie/:movieId: remove the caller's review of the movie if there is one; the reply is the same either way. */
  function Delete(store: ReviewStore, caller: UserId, movieId: string): (r: Reply)
    ensures r.status == 200 && r.body == Message(DeletedMessage)
    ensures (forall x | x in store :: !KeyedBy(x, caller, movieId)) ==> r.store == store
    ensures forall x | x in r.store :: x in store
    ensures forall x | !KeyedBy(x, caller, movieId) :: multiset(r.store)[x] == multiset(store)[x]
    ensures UniquePairs(store) ==> UniquePairs(r.store)
    ensures UniquePairs(store) ==> forall x | x in r.store :: !KeyedBy(x, caller, movieId)
  {
    var i := IndexOfPair(store, caller, movieId);
    if i == |store| then Reply(store, 200, Message(DeletedMessage))
    else
      RemoveAtFacts(store, i);
      Reply(store[..i] + store[i + 1..], 200, Message(DeletedMessage))
  }

  /** Cutting out position `i` removes exactly one copy and keeps the unique index. */
  lemma RemoveAtFacts(store: ReviewStore, i: nat)
    requires i < |store|
    ensures var next := store[..i] + store[i + 1..];
      && multiset(store) == multiset(next) + multiset{store[i]}
      && (forall x | x in next :: x in store)
      && (UniquePairs(store) ==> UniquePairs(next))
      && (UniquePairs(store) ==> forall x | x in next :: !KeyedBy(x, store[i].user, store[i].movieId))
  {
    var next := store[..i] + store[i + 1..];
    assert store == store[..i] + [store[i]] + store[i + 1..];
    RemoveAtPositions(store, i);
    if UniquePairs(store) {
      RemoveAtUnique(store, i);
    }
  }

  /** Position `k` of the cut store is position `k` or `k + 1` of the original. */
  lemma RemoveAtPositions(store: ReviewStore, i: nat)
    requires i < |store|
    ensures var next := store[..i] + store[i + 1..];
      |next| == |store| - 1 && forall k | 0 <= k < |next| :: next[k] == store[if k < i then k else k + 1]
  {
  }

  /** Under the unique index the cut store is still unique and no longer holds the removed pair. */
  lemma RemoveAtUnique(store: ReviewStore, i: nat)
    requires i < |store| && UniquePairs(store)
    ensures var next := store[..i] + store[i + 1..];
      && UniquePairs(next)
      && forall x | x in next :: !KeyedBy(x, store[i].user, store[i].movieId)
  {
    var next := store[..i] + store[i + 1..];
    RemoveAtPositions(store, i);
    forall x | x in next ensures !KeyedBy(x, store[i].user, store[i].movieId) {
      var k :| 0 <= k < |next| && next[k] == x;
      if k < i {
        assert !KeyedBy(store[i], store[k].user, store[k].movieId);
      } else {
        assert !KeyedBy(store[k + 1], store[i].user, store[i].movieId);
      }
    }
    forall a, b | 0 <= a < b < |next| ensures !KeyedBy(next[b], next[a].user, next[a].movieId) {
      var a' := if a < i then a else a + 1;
      var b' := if b < i then b else b + 1;
      assert !KeyedBy(store[b'], store[a'].user, store[a'].movieId);
    }
  }

  /** After an upsert the pair has exactly one review, the saved one, and the index stays unique. */
  lemma UpsertKeepsPairsUnique(store: ReviewStore, caller: UserId, movieId: string, rating: int, text: string, now: int)
    requires UniquePairs(store)
    ensures var r := Upsert(store, caller, movieId, rating, text, now);
      && UniquePairs(r.store)
      && forall x | x in r.store && KeyedBy(x, caller, movieId) :: x == r.body.saved
  {
    var i := IndexOfPair(store, caller, movieId);
    if i < |store| {
      ReplaceAtKeepsOthers(store, i, Upsert(store, caller, movieId, rating, text, now).body.saved);
    } else {
      AppendFreshPair(store, Upsert(store, caller, movieId, rating, text, now).body.saved);
    }
  }

  /** An upsert leaves every review of another user or another movie where it was. */
  lemma UpsertTouchesOnlyOwnPair(store: ReviewStore, caller: UserId, movieId: string, rating: int, text: string, now: int)
    ensures var r := Upsert(store, caller, movieId, rating, text, now);
      && |store| <= |r.store|
      && forall i | 0 <= i < |store| && !KeyedBy(store[i], caller, movieId) :: r.store[i] == store[i]
  {
  }

  /** The caller's values meet the schema bounds: a movie id, a rating in [1, 5], a trimmed text of 1 to 1000 characters. */
  predicate WithinBounds(movieId: string, rating: int, text: string) {
    movieId != "" && 1 <= rating <= 5 && Trim(text) != "" && |Trim(text)| <= MaxReviewLength
  }

  /**
   * The route itself checks no bound, so the saved review meets the schema
   * bounds exactly when the caller's values do; either way it is stored.
   */
  lemma UpsertSavesWellFormedIff(store: ReviewStore, caller: UserId, movieId: string, rating: int, text: string, now: int)
    ensures var r := Upsert(store, caller, movieId, rating, text, now);
      && r.body.saved in r.store
      && (WellFormed(r.body.saved) <==> WithinBounds(movieId, rating, text))
  {
    TrimIdempotent(text);
  }

  /** The schema bounds survive an upsert whose values meet them. */
  lemma UpsertKeepsWellFormed(store: ReviewStore, caller: UserId, movieId: string, rating: int, text: string, now: int)
    requires forall x | x in store :: WellFormed(x)
    requires WithinBounds(movieId, rating, text)
    ensures forall x | x in Upsert(store, caller, movieId, rating, text, now).store :: WellFormed(x)
  {
    var r := Upsert(store, caller, movieId, rating, text, now);
    UpsertSavesWellFormedIff(store, caller, movieId, rating, text, now);
    var i := IndexOfPair(store, caller, movieId);
    if i < |store| {
      ReplaceAtKeepsOthers(store, i, r.body.saved);
    } else {
      AppendFreshPair(store, r.body.saved);
    }
  }

  /** An out-of-range rating is stored as given. */
  lemma UpsertStoresUncheckedRating(caller: UserId, movieId: string, text: string, now: int)
    requires movieId != "" && Trim(text) != ""
    ensures var r := Upsert([], caller, movieId, 9, text, now);
      r.status == 200 && !WellFormed(r.body.saved) && r.body.saved in r.store
  {
  }

  /** Upserting twice for the same pair overwrites: no second review appears and the later values win. */
  lemma UpsertTwiceOverwrites(store: ReviewStore, caller: UserId, movieId: string,
                              rating1: int, text1: string, now1: int, rating2: int, text2: string, now2: int)
    requires UniquePairs(store)
    ensures var first := Upsert(store, caller, movieId, rating1, text1, now1).store;
      var second := Upsert(first, caller, movieId, rating2, text2, now2).store;
      && |second| == |first|
      && GetOwn(second, caller, movieId).body.found.Some?
      && GetOwn(second, caller, movieId).body.found.value.rating == rating2
      && GetOwn(second, caller, movieId).body.found.value.review == Trim(text2)
  {
    var r1 := Upsert(store, caller, movieId, rating1, text1, now1);
    UpsertKeepsPairsUnique(store, caller, movieId, rating1, text1, now1);
    assert r1.body.saved in r1.store && KeyedBy(r1.body.saved, caller, movieId);
    var r2 := Upsert(r1.store, caller, movieId, rating2, text2, now2);
    UpsertKeepsPairsUnique(r1.store, caller, movieId, rating2, text2, now2);
    var own := GetOwn(r2.store, caller, movieId).body.found;
    assert own == Some(r2.body.saved);
  }

  /** After a delete the caller has no review of the movie. */
  lemma DeleteLeavesNoOwnReview(store: ReviewStore, caller: UserId, movieId: string)
    requires UniquePairs(store)
    ensures GetOwn(Delete(store, caller, movieId).store, caller, movieId).body.found == None
  {
  }

  /** Deleting an account keeps its reviews; they are still listed, with a null author. */
  lemma DeletedAccountReviewsStayListed(store: ReviewStore, db: UserDb, caller: UserId, movieId: string)
    ensures var after := UserRoutes.DeleteAccount(db, caller).db;
      forall x | x in store && x.movieId == movieId && x.user == caller ::
        && Populate(x, after) in ListForMovie(store, after, movieId).body.items
        && Populate(x, after).author == None
  {
  }
}

=== FILE: seqs.dfy ===
/** Linear scans over sequences: what `indexOf`, `includes` and `/[class]/.test` compute. */
module Seqs {

  /** The first index whose element satisfies `p`, or `|s|` when there is none. */
  function FirstIndex<T>(s: seq<T>, p: T -> bool): (i: nat)
    ensures i <= |s|
    ensures i < |s| ==> p(s[i])
    ensures forall k | 0 <= k < i :: !p(s[k])
  {
    if s == [] then 0
    else if p(s[0]) then 0
    else 1 + FirstIndex(s[1..], p)
  }

  /** Some element of `s` satisfies `p`. */
  function Any<T>(s: seq<T>, p: T -> bool): (b: bool)
    ensures b <==> exists k | 0 <= k < |s| :: p(s[k])
  {
    FirstIndex(s, p) < |s|
  }
}

=== FILE: server_validation.dfy ===
/**
 * The server-side request-body rules and the middleware that turns their
 * failures into a 400 response. A body field holds "" when it is absent or
 * empty: every rule here treats the two alike.
 */
module ServerValidation {

  import opened Seqs
  import opened JsText

  /** The string fields of a request body the rules look at. */
  datatype Body = Body(username: string, email: string, password: string,
                       newPassword: string, currentPassword: string)

  /** The five rule chains, one per exported validator. */
  datatype Rule = UsernameRule | EmailRule | PasswordRule | NewPasswordRule | CurrentPasswordRule

  /** One entry of the `errors` array: `{ field, message }`. */
  datatype FieldError = FieldError(field: string, message: string)

  /** What the middleware does with a request: hand it on, or answer it. */
  datatype Outcome =
    | Next
    | Reject(status: int, message: string, errors: seq<FieldError>)

  function FieldOf(rule: Rule): string {
    match rule
    case UsernameRule => "username"
    case EmailRule => "email"
    case PasswordRule => "password"
    case NewPasswordRule => "newPassword"
    case CurrentPasswordRule => "currentPassword"
  }

  function MessageOf(rule: Rule): string {
    match rule
    case UsernameRule => "Username must be at least 3 characters long"
    case EmailRule => "Please enter a valid email address"
    case PasswordRule => "Password must contain at least one uppercase letter, one lowercase letter, and one number"
    case NewPasswordRule => "New password must contain at least one uppercase letter, one lowercase letter, and one number"
    case CurrentPasswordRule => "Current password is required when setting new password"
  }

  /**
   * `(?=.*X)` tried at the start of the string: some character of class X is
   * reached before any line terminator.
   */
  ghost predicate LookaheadFinds(s: string, inClass: char -> bool) {
    exists k | 0 <= k < |s| :: inClass(s[k]) && forall j | 0 <= j < k :: !IsLineTerminator(s[j])
  }

  /** The language of `/^(?=.*[a-z])(?=.*[A-Z])(?=.*\d).+$/` (no flags). */
  ghost predicate MatchesPasswordPattern(s: string) {
    && LookaheadFinds(s, IsAsciiLower)
    && LookaheadFinds(s, IsAsciiUpper)
    && LookaheadFinds(s, IsAsciiDigit)
    && |s| >= 1 && forall k | 0 <= k < |s| :: !IsLineTerminator(s[k])
  }

  /** A scan deciding the password pattern. */
  function StrongPassword(s: string): (b: bool)
    ensures b <==> MatchesPasswordPattern(s)
  {
    s != "" && !Any(s, IsLineTerminator)
    && Any(s, IsAsciiLower) && Any(s, IsAsciiUpper) && Any(s, IsAsciiDigit)
  }

  /**
   * Whether one rule chain reports an error. Each chain first asks whether its
   * guard field exists and is non-empty, and is skipped otherwise; `isEmail`
   * stands for the library's address check.
   */
  function Fails(rule: Rule, body: Body, isEmail: string -> bool): (failed: bool)
    ensures rule == UsernameRule ==>
      (!failed <==> body.username == "" || |Trim(body.username)| >= 3)
    ensures rule == EmailRule ==>
      (!failed <==> body.email == "" || isEmail(Trim(body.email)))
    ensures rule == PasswordRule ==>
      (!failed <==> body.password == "" || MatchesPasswordPattern(body.password))
    ensures rule == NewPasswordRule ==>
      (!failed <==> body.newPassword == "" || MatchesPasswordPattern(body.newPassword))
    ensures rule == CurrentPasswordRule ==>
      (!failed <==> body.newPassword == "" || body.currentPassword != "")
  {
    match rule
    case UsernameRule => body.username != "" && |Trim(body.username)| < 3
    case EmailRule => body.email != "" && !isEmail(Trim(body.email))
    case PasswordRule => body.password != "" && !StrongPassword(body.password)
    case NewPasswordRule => body.newPassword != "" && !StrongPassword(body.newPassword)
    case CurrentPasswordRule => body.newPassword != "" && body.currentPassword == ""
  }

  /** The error a failing chain contributes. */
  function ErrorOf(rule: Rule): FieldError {
    FieldError(FieldOf(rule), MessageOf(rule))
  }

  /** No chain of `rules` reports an error. */
  predicate AllPass(rules: seq<Rule>, body: Body, isEmail: string -> bool) {
    forall i | 0 <= i < |rules| :: !Fails(rules[i], body, isEmail)
  }

  /** The errors `validationResult` collects when the chains run in order. */
  function Collect(rules: seq<Rule>, body: Body, isEmail: string -> bool): (errors: seq<FieldError>)
    ensures |errors| <= |rules|
    ensures errors == [] <==> AllPass(rules, body, isEmail)
  {
    if rules == [] then []
    else
      var rest := Collect(rules[1..], body, isEmail);
      assert forall i | 1 <= i < |rules| :: rules[i] == rules[1..][i - 1];
      Contribution(rules[0], body, isEmail) + rest
  }

  /** What one chain adds to the error list. */
  function Contribution(rule: Rule, body: Body, isEmail: string -> bool): seq<FieldError> {
    if Fails(rule, body, isEmail) then [ErrorOf(rule)] else []
  }

  /** Collecting runs the chains in order: the errors of a concatenation are concatenated. */
  lemma {:induction false} CollectAppend(a: seq<Rule>, b: seq<Rule>, body: Body, isEmail: string -> bool)
    ensures Collect(a + b, body, isEmail) == Collect(a, body, isEmail) + Collect(b, body, isEmail)
  {
    if a != [] {
      assert (a + b)[0] == a[0];
      assert (a + b)[1..] == a[1..] + b;
      CollectAppend(a[1..], b, body, isEmail);
      var c := Contribution(a[0], body, isEmail);
      calc {
        Collect(a + b, body, isEmail);
        c + Collect(a[1..] + b, body, isEmail);
        c + (Collect(a[1..], body, isEmail) + Collect(b, body, isEmail));
        (c + Collect(a[1..], body, isEmail)) + Collect(b, body, isEmail);
      }
    } else {
      assert a + b == b;
    }
  }

  /** The errors are exactly those of the failing chains. */
  lemma {:induction false} CollectListsFailures(rules: seq<Rule>, body: Body, isEmail: string -> bool, e: FieldError)
    ensures e in Collect(rules, body, isEmail)
      <==> exists i | 0 <= i < |rules| :: Fails(rules[i], body, isEmail) && e == ErrorOf(rules[i])
  {
    if rules != [] {
      CollectListsFailures(rules[1..], body, isEmail, e);
      assert forall i | 1 <= i < |rules| :: rules[i] == rules[1..][i - 1];
      if exists i | 0 <= i < |rules| :: Fails(rules[i], body, isEmail) && e == ErrorOf(rules[i]) {
        var i :| 0 <= i < |rules| && Fails(rules[i], body, isEmail) && e == ErrorOf(rules[i]);
        if i > 0 {
          assert Fails(rules[1..][i - 1], body, isEmail);
        }
      }
    }
  }

  /** `checkValidation`: any error answers 400 with every error in order, and stops the request. */
  function CheckValidation(errors: seq<FieldError>): (o: Outcome)
    ensures o.Next? <==> errors == []
    ensures o.Reject? ==> o == Reject(400, "Validation failed", errors)
  {
    if |errors| != 0 then Reject(400, "Validation failed", errors) else Next
  }

  /** A chain of rules followed by `checkValidation`: the request gets through iff every rule holds. */
  lemma {:induction false} GatePassesIffAllRulesHold(rules: seq<Rule>, body: Body, isEmail: string -> bool)
    ensures CheckValidation(Collect(rules, body, isEmail)).Next?
      <==> AllPass(rules, body, isEmail)
  {
  }

  /** The new-password rule is the password rule applied to another field, under its own message. */
  lemma NewPasswordMirrorsPassword(body: Body, isEmail: string -> bool)
    requires body.newPassword == body.password
    ensures Fails(NewPasswordRule, body, isEmail) == Fails(PasswordRule, body, isEmail)
    ensures MessageOf(NewPasswordRule) != MessageOf(PasswordRule)
  {
  }
}

=== FILE: user_routes.dfy ===
/**
 * The account routes: register, login, read, update and delete one's own
 * profile, each a transition of the user collection returning a status and a
 * JSON body. The caller of the protected routes is the id the token check
 * resolved; hashing, password comparison and token signing are parameters.
 */
module UserRoutes {

  import opened Wrappers
  import opened Users

  /** Hashing, the stored-hash comparison and token signing, left uninterpreted. */
  datatype Crypto = Crypto(hash: string -> string, compare: (string, string) -> bool, sign: UserId -> string)

  /** The `user` object of a session reply; it never carries the password. */
  datatype Summary = Summary(id: UserId, username: string, email: string)

  datatype ReplyBody =
    | Message(message: string)
    | Session(token: string, user: Summary)
    | Profile(id: UserId, username: string, email: string, favorites: seq<string>)

  datatype Reply = Reply(db: UserDb, status: int, body: ReplyBody)

  const DuplicateUserMessage := "User with this email or username already exists"
  const InvalidCredentialsMessage := "Invalid credentials"
  const UserNotFoundMessage := "User not found"
  const UsernameTakenMessage := "Username already taken"
  const EmailInUseMessage := "Email already in use"
  const CurrentPasswordRequiredMessage := "Current password is required to set new password"
  const CurrentPasswordIncorrectMessage := "Current password is incorrect"
  const UpdateFailedMessage := "Failed to update profile"
  const AccountDeletedMessage := "Account deleted successfully"

  /** Some stored user has this email or this username. */
  ghost predicate IdentityTaken(db: UserDb, username: string, email: string) {
    exists id | id in db.users :: db.users[id].email == email || db.users[id].username == username
  }

  /** POST /register: refuse a taken email or username, otherwise store a new user and sign a token for it. */
  function Register(db: UserDb, crypto: Crypto, username: string, email: string, password: string): (r: Reply)
    ensures r.status == 400 || r.status == 201
    ensures r.status == 400 <==> IdentityTaken(db, username, email)
    ensures r.status == 400 ==> r.db == db && r.body == Message(DuplicateUserMessage)
    ensures r.status == 201 ==>
      && db.nextId !in db.users
      && r.db.users == db.users[db.nextId := User(username, email, crypto.hash(password), [])]
      && |r.db.users| == |db.users| + 1
      && r.body == Session(crypto.sign(db.nextId), Summary(db.nextId, username, email))
    ensures UniqueIdentities(db.users) ==> UniqueIdentities(r.db.users)
  {
    var existing := FindOne(db, (u: User) => u.email == email || u.username == username);
    if existing.Some? then Reply(db, 400, Message(DuplicateUserMessage))
    else
      var id := db.nextId;
      var created := Db(db.users[id := User(username, email, crypto.hash(password), [])], id + 1);
      Reply(created, 201, Session(crypto.sign(id), Summary(id, username, email)))
  }

  /** POST /login: look the email up and compare the password; both failures give the same 401. */
  function Login(db: UserDb, crypto: Crypto, email: string, password: string): (r: Reply)
    ensures r.db == db
    ensures r.status == 200 || r == Reply(db, 401, Message(InvalidCredentialsMessage))
    ensures r.status == 200 ==>
      exists id | id in db.users ::
        && db.users[id].email == email
        && crypto.compare(password, db.users[id].passwordHash)
        && r.body == Session(crypto.sign(id), Summary(id, db.users[id].username, email))
    ensures (forall id | id in db.users :: db.users[id].email != email) ==> r.status == 401
    ensures UniqueIdentities(db.users) ==>
      forall id | id in db.users && db.users[id].email == email ::
        r.status == 200 <==> crypto.compare(password, db.users[id].passwordHash)
  {
    var found := FindOne(db, (u: User) => u.email == email);
    if found.None? || !crypto.compare(password, db.users[found.value].passwordHash) then
      Reply(db, 401, Message(InvalidCredentialsMessage))
    else
      var u := db.users[found.value];
      Reply(db, 200, Session(crypto.sign(found.value), Summary(found.value, u.username, u.email)))
  }

  /** An unknown email and a wrong password are indistinguishable to the client. */
  lemma LoginFailuresLookAlike(db: UserDb, crypto: Crypto, unknown: string, p1: string, id: UserId, p2: string)
    requires forall i | i in db.users :: db.users[i].email != unknown
    requires UniqueIdentities(db.users)
    requires id in db.users && !crypto.compare(p2, db.users[id].passwordHash)
    ensures Login(db, crypto, unknown, p1) == Login(db, crypto, db.users[id].email, p2)
  {
  }

  /** GET /profile: the caller's record without its password. */
  function GetProfile(db: UserDb, caller: UserId): (r: Reply)
    ensures r.db == db
    ensures r.status == 200 <==> caller in db.users
    ensures caller in db.users ==>
      var u := db.users[caller];
      r.body == Profile(caller, u.username, u.email, u.favorites)
    ensures caller !in db.users ==> r == Reply(db, 404, Message(UserNotFoundMessage))
  {
    if caller !in db.users then Reply(db, 404, Message(UserNotFoundMessage))
    else
      var u := db.users[caller];
      Reply(db, 200, Profile(caller, u.username, u.email, u.favorites))
  }

  /** The caller asks for a new username that another user already holds. */
  ghost predicate UsernameClash(db: UserDb, caller: UserId, username: string)
    requires caller in db.users
  {
    username != "" && username != db.users[caller].username
    && exists id | id in db.users :: db.users[id].username == username
  }

  /** The caller asks for a new email that another user already holds. */
  ghost predicate EmailClash(db: UserDb, caller: UserId, email: string)
    requires caller in db.users
  {
    email != "" && email != db.users[caller].email
    && exists id | id in db.users :: db.users[id].email == email
  }

  /** The record an accepted update saves: only non-empty fields replace the stored ones. */
  function Updated(u: User, crypto: Crypto, username: string, email: string, newPassword: string): (v: User)
    ensures v.favorites == u.favorites
    ensures username == "" && email == "" && newPassword == "" ==> v == u
    ensures username != "" ==> v.username == username
    ensures username == "" ==> v.username == u.username
    ensures email != "" ==> v.email == email
    ensures email == "" ==> v.email == u.email
    ensures newPassword != "" ==> v.passwordHash == crypto.hash(newPassword)
    ensures newPassword == "" ==> v.passwordHash == u.passwordHash
  {
    User(if username != "" then username else u.username,
         if email != "" then email else u.email,
         if newPassword != "" then crypto.hash(newPassword) else u.passwordHash,
         u.favorites)
  }

  /**
   * PUT /profile: duplicate checks for a changed username, then a changed
   * email; the current-password gate when a new password is given; then the
   * non-empty fields are saved. For a caller without a record, the guards
   * short-circuit on empty fields before the record is read: a body holding
   * only a new password reaches the missing-current-password reply, and any
   * other body dereferences the absent record and ends in the catch branch.
   */
  function UpdateProfile(db: UserDb, crypto: Crypto, caller: UserId, username: string, email: string,
                         currentPassword: string, newPassword: string): (r: Reply)
    ensures r.status == 200 || r.status == 400
    ensures r.status == 400 ==> r.db == db
    ensures (caller !in db.users && username == "" && email == "" && newPassword != "" && currentPassword == "") ==>
      r == Reply(db, 400, Message(CurrentPasswordRequiredMessage))
    ensures (caller !in db.users && !(username == "" && email == "" && newPassword != "" && currentPassword == "")) ==>
      r == Reply(db, 400, Message(UpdateFailedMessage))
    ensures caller in db.users && UsernameClash(db, caller, username) ==>
      r == Reply(db, 400, Message(UsernameTakenMessage))
    ensures caller in db.users && !UsernameClash(db, caller, username) && EmailClash(db, caller, email) ==>
      r == Reply(db, 400, Message(EmailInUseMessage))
    ensures (&& caller in db.users && !UsernameClash(db, caller, username) && !EmailClash(db, caller, email)
             && newPassword != "" && currentPassword == "") ==>
      r == Reply(db, 400, Message(CurrentPasswordRequiredMessage))
    ensures (&& caller in db.users && !UsernameClash(db, caller, username) && !EmailClash(db, caller, email)
             && newPassword != "" && currentPassword != ""
             && !crypto.compare(currentPassword, db.users[caller].passwordHash)) ==>
      r == Reply(db, 400, Message(CurrentPasswordIncorrectMessage))
    ensures r.status == 200 <==>
      && caller in db.users && !UsernameClash(db, caller, username) && !EmailClash(db, caller, email)
      && (newPassword != "" ==> currentPassword != "" && crypto.compare(currentPassword, db.users[caller].passwordHash))
    ensures r.status == 200 ==>
      && caller in db.users
      && (newPassword != "" ==> crypto.compare(currentPassword, db.users[caller].passwordHash))
      && r.db.nextId == db.nextId
      && r.db.users.Keys == db.users.Keys
      && (forall id | id in db.users && id != caller :: r.db.users[id] == db.users[id])
    ensures r.status == 200 ==>
      var before := db.users[caller];
      var after := r.db.users[caller];
      && after.username == (if username != "" then username else before.username)
      && after.email == (if email != "" then email else before.email)
      && after.passwordHash == (if newPassword != "" then crypto.hash(newPassword) else before.passwordHash)
      && after.favorites == before.favorites
      && r.body == Profile(caller, after.username, after.email, after.favorites)
    ensures UniqueIdentities(db.users) ==> UniqueIdentities(r.db.users)
  {
    if caller !in db.users then
      if username == "" && email == "" && newPassword != "" && currentPassword == "" then
        Reply(db, 400, Message(CurrentPasswordRequiredMessage))
      else
        Reply(db, 400, Message(UpdateFailedMessage))
    else
      var u := db.users[caller];
      if username != "" && username != u.username && FindOne(db, (x: User) => x.username == username).Some? then
        Reply(db, 400, Message(UsernameTakenMessage))
      else if email != "" && email != u.email && FindOne(db, (x: User) => x.email == email).Some? then
        Reply(db, 400, Message(EmailInUseMessage))
      else if newPassword != "" && currentPassword == "" then
        Reply(db, 400, Message(CurrentPasswordRequiredMessage))
      else if newPassword != "" && !crypto.compare(currentPassword, u.passwordHash) then
        Reply(db, 400, Message(CurrentPasswordIncorrectMessage))
      else
        var saved := Updated(u, crypto, username, email, newPassword);
        UpdateKeepsIdentitiesUnique(db, caller, saved);
        Reply(Db(db.users[caller := saved], db.nextId), 200,
              Profile(caller, saved.username, saved.email, saved.favorites))
  }

  /** Replacing one user by a record whose changed identity fields are free keeps identities unique. */
  lemma UpdateKeepsIdentitiesUnique(db: UserDb, caller: UserId, saved: User)
    requires caller in db.users
    requires saved.username == db.users[caller].username
      || forall id | id in db.users :: db.users[id].username != saved.username
    requires saved.email == db.users[caller].email
      || forall id | id in db.users :: db.users[id].email != saved.email
    ensures UniqueIdentities(db.users) ==> UniqueIdentities(db.users[caller := saved])
  {
  }

  /** Resubmitting the stored username and email with no new password saves nothing new. */
  lemma UnchangedFieldsSkipChecks(db: UserDb, crypto: Crypto, caller: UserId, currentPassword: string)
    requires caller in db.users
    ensures var u := db.users[caller];
      var r := UpdateProfile(db, crypto, caller, u.username, u.email, currentPassword, "");
      r.status == 200 && r.db == db
  {
    var u := db.users[caller];
    assert db.users[caller := u] == db.users;
  }

  /** DELETE /profile: the caller's record goes, every other record stays; the reply is always a success. */
  function DeleteAccount(db: UserDb, caller: UserId): (r: Reply)
    ensures r.status == 200 && r.body == Message(AccountDeletedMessage)
    ensures r.db.users.Keys == db.users.Keys - {caller}
    ensures forall id | id in r.db.users :: r.db.users[id] == db.users[id]
    ensures r.db.nextId == db.nextId
  {
    Reply(Db(db.users - {caller}, db.nextId), 200, Message(AccountDeletedMessage))
  }
}

=== FILE: users.dfy ===
/**
 * The user collection. Documents are keyed by id; ids are handed out in
 * increasing order, so scanning ids upward visits users in insertion order.
 */
module Users {

  import opened Wrappers

  type UserId = nat

  /** A stored user. `passwordHash` is whatever the hashing function produced; favourites are bare movie ids. */
  datatype User = User(username: string, email: string, passwordHash: string, favorites: seq<string>)

  datatype Db = Db(users: map<UserId, User>, nextId: UserId)

  /** Every stored id was handed out before `nextId`. */
  predicate IdsIssued(db: Db) {
    forall id | id in db.users :: id < db.nextId
  }

  type UserDb = db: Db | IdsIssued(db) witness Db(map[], 0)

  /** No two users share a username, and no two share an email (compared exactly, without normalisation). */
  ghost predicate UniqueIdentities(users: map<UserId, User>) {
    forall a, b | a in users && b in users && a != b ::
      users[a].username != users[b].username && users[a].email != users[b].email
  }

  /** The first user, in id order from `from` below `bound`, that satisfies `p`. */
  function FindFrom(users: map<UserId, User>, p: User -> bool, from: nat, bound: nat): (r: Option<UserId>)
    ensures r.Some? ==>
      && from <= r.value < bound && r.value in users && p(users[r.value])
      && forall id | from <= id < r.value && id in users :: !p(users[id])
    ensures r.None? ==> forall id | from <= id < bound && id in users :: !p(users[id])
    decreases bound - from
  {
    if from >= bound then None
    else if from in users && p(users[from]) then Some(from)
    else FindFrom(users, p, from + 1, bound)
  }

  /** `User.findOne(filter)`: the first stored user the filter accepts, or null. */
  function FindOne(db: UserDb, p: User -> bool): (r: Option<UserId>)
    ensures r.Some? ==> r.value in db.users && p(db.users[r.value])
    ensures r.None? <==> forall id | id in db.users :: !p(db.users[id])
  {
    FindFrom(db.users, p, 0, db.nextId)
  }
}

=== FILE: validator_agreement.dfy ===
/**
 * How the browser's validators and the server's rules relate on the same
 * field values: the server's password rule is the client's plus the
 * single-line restriction of `.`, and the server trims usernames first.
 */
module ValidatorAgreement {

  import opened JsText
  import opened ClientValidation
  import opened ServerValidation

  /** A password the server rule accepts is one the client accepts. */
  lemma ServerPasswordImpliesClient(body: Body, isEmail: string -> bool)
    requires body.password != "" && !Fails(PasswordRule, body, isEmail)
    ensures ValidatePassword(body.password) == ""
  {
    var p := body.password;
    assert MatchesPasswordPattern(p);
    assert LookaheadFinds(p, IsAsciiUpper);
  }

  /** A single-line password the client accepts is one the server rule accepts. */
  lemma ClientPasswordImpliesServer(body: Body, isEmail: string -> bool)
    requires ValidatePassword(body.password) == ""
    requires forall k | 0 <= k < |body.password| :: !IsLineTerminator(body.password[k])
    ensures !Fails(PasswordRule, body, isEmail)
  {
    var p := body.password;
    var u :| 0 <= u < |p| && IsAsciiUpper(p[u]);
    var l :| 0 <= l < |p| && IsAsciiLower(p[l]);
    var d :| 0 <= d < |p| && IsAsciiDigit(p[d]);
    assert LookaheadFinds(p, IsAsciiUpper);
    assert LookaheadFinds(p, IsAsciiLower);
    assert LookaheadFinds(p, IsAsciiDigit);
  }

  /** The client accepts a password with a line break that the server rule refuses. */
  lemma LineBreakSplitsValidators(isEmail: string -> bool)
    ensures var body := Body("", "", "Ab1\n", "", "");
      ValidatePassword(body.password) == "" && Fails(PasswordRule, body, isEmail)
  {
    var p := "Ab1\n";
    assert IsAsciiUpper(p[0]) && IsAsciiLower(p[1]) && IsAsciiDigit(p[2]);
    assert IsLineTerminator(p[3]);
  }

  /** A non-empty username the server rule accepts is one the client accepts. */
  lemma ServerUsernameImpliesClient(body: Body, isEmail: string -> bool)
    requires body.username != "" && !Fails(UsernameRule, body, isEmail)
    ensures ValidateUsername(body.username) == ""
  {
  }

  /** Three spaces pass the client's length check but not the server's trimmed one. */
  lemma BlankUsernameSplitsValidators(isEmail: string -> bool)
    ensures var body := Body("   ", "", "", "", "");
      ValidateUsername(body.username) == "" && Fails(UsernameRule, body, isEmail)
  {
    assert IsWhitespace("   "[0]) && IsWhitespace("   "[1]) && IsWhitespace("   "[2]);
  }
}

=== FILE: wrappers.dfy ===
/** Optional values: a JavaScript `null` result (findOne with no match) becomes `None`. */
module Wrappers {

  datatype Option<+T> = None | Some(value: T)
}
